=== FILE: README.md ===
# Date-range picker: a verified model

This project models the core of a React date-range picker: the per-day
classifier and click/hover protocol of `Days`, the month grid that
`Calendar` builds, and the month navigation and hovered date that the
`DateRange` component keeps. The page that owns the start/end strings
(setting them from the picker's `onStart`/`onEnd` calls and clearing them)
is modelled only as far as the selection state machine needs it.

Modules:

- `Wrappers`: `Option`, standing for `Date | null`.
- `Gregorian`: proleptic Gregorian arithmetic. Dates are numbered from
  1970-01-01, weekdays count from Sunday = 0, a month index is
  `year * 12 + month - 1`, and `AddMonths` clamps the day of month as
  date-fns `addMonths` does.
- `IsoDate`: the `yyyy-MM-dd` text the picker emits, and its reading back.
- `Days`: one interactive day cell. Times are milliseconds: a cell's date is
  `dayNumber * 86_400_000 + t` with the clock's time of day `t`, while parsed
  start/end dates and "today" are midnights. The classifier compares those
  instants exactly as the component does; the lemmas restate every flag in
  calendar days.
- `Calendar`: the grid of leading fillers, month days and trailing fillers.
- `DateRange`: the picker with its owner: month offset, hovered date,
  the clock-derived view month, and the selection state machine
  (Empty, PartialStart, Complete) driven by clicks, hovers and Clear.
- `Scenarios`: concrete walks through the click protocol.

Consequences of comparing instants, proved rather than corrected:

- With a time of day after midnight, clicking the start day again while no
  end is set emits an end equal to the start (`Days.ClickOnStartDay`), so
  clicking one day twice from nothing selected completes a one-day range
  instead of restarting (`DateRange.ClickTwiceFromEmpty`).
- With a time of day after midnight, the end day's cell is outside the
  in-range interval; it is still styled as a boundary (`Days.InRangeByDay`,
  `Days.RangeCoverage`).
- The strings the page holds therefore keep "the end is never on a calendar
  day before the start", not "the end is strictly after the start"
  (`DateRange.StepPreservesInv`).

Three further behaviours of the component's code that the model keeps:

- The flags of a cell are independent booleans, not one exclusive state: a
  past day that is also the start day gets both the disabled and the
  boundary styling.
- A click that completes or restarts the range leaves the hovered date as
  it is; only the mouse leaving a cell clears it.
- A complete selection may hold an end equal to its start (see above).

## Model

| member | source | states |
|---|---|---|
| Gregorian.DaysInMonth | components/DateRange/Calendar.tsx:33-34 | a month has 28 to 31 days, and February has 29 exactly in leap years |
| Gregorian.Weekday | components/DateRange/Calendar.tsx:91-92 | the weekday of a day is one of the seven values 0..6 |
| Gregorian.WeekdayAnchors | components/DateRange/Calendar.tsx:92 | day 0 is 1970-01-01, a Thursday (4); 2000-01-01 is a Saturday (6) and 2024-03-10 a Sunday (0), so 0 means Sunday as in `getDay` |
| Gregorian.AddMonths | components/DateRange/index.tsx:18-21 | moving a date by k months lands in the month k later, on a valid date whose day is the original one or, when that does not exist, the month's last day |
| Gregorian.NextMonthStart | components/DateRange/Calendar.tsx:79-82 | the next month's first day is the day after this month's last day |
| Gregorian.DayNumberOrder | components/DateRange/Days.tsx:59-60 | comparing day numbers of valid dates is comparing them by year, month, then day |
| Gregorian.DayNumberInjective | components/DateRange/Days.tsx:53-54 | two valid dates are the same calendar day exactly when they are equal |
| IsoDate.Parse | components/DateRange/Days.tsx:49-51 | a string that reads as a date reads as a valid date with a four-digit year |
| IsoDate.Format | components/DateRange/Days.tsx:85 | the emitted text is the year of era in at least four digits, the two-digit month and the two-digit day, separated by dashes; it is ten characters long exactly when the year of era is below 10000 |
| IsoDate.ParseFormat | components/DateRange/Days.tsx:85 | the text a click emits for a date of years 1 to 9999 reads back as that date |
| IsoDate.FormatParse | components/DateRange/Days.tsx:49-51 | every string that reads as a date of year 1 or later is exactly the text the picker would emit for it |
| Days.Resolve | components/DateRange/Days.tsx:49-51 | an empty start/end string is absent, and a present one is a valid date |
| Days.ResolveFormat | components/DateRange/Days.tsx:85-89 | a start or end the picker emitted for a date of years 1 to 9999 is read back by the cells as the clicked date |
| Days.Classify | components/DateRange/Days.tsx:45-79 | in-range needs both start and end, previewing needs a start, no end and a hovered date, so the two are never both on |
| Days.PastDisabledByDay | components/DateRange/Days.tsx:46-47 | a day is past-disabled exactly when disablePast holds and its day number is below today's |
| Days.StartDayByDate | components/DateRange/Days.tsx:53 | the start flag is on exactly for the cell whose date is the parsed start date |
| Days.EndDayByDate | components/DateRange/Days.tsx:54 | the end flag is on exactly for the cell whose date is the parsed end date |
| Days.InRangeByDay | components/DateRange/Days.tsx:56-60 | in-range holds exactly when start and end are present, the end day is after the start day, and the cell's day is from the start day to before the end day, or the end day itself at time of day 0 |
| Days.PreviewByDay | components/DateRange/Days.tsx:63-68 | for a hovered cell of the same grid, previewing holds exactly when a start is present, no end is, the hovered cell is after the start, and the cell's day is from the start day to the hovered day |
| Days.RangeCoverage | components/DateRange/Days.tsx:53-60 | for start day before end day, every day between them inclusive is a boundary or in range, and no day outside is in range |
| Days.Click | components/DateRange/Days.tsx:82-99 | a past-disabled day emits nothing; with a start, no end and a later cell the click emits only onEnd(day); otherwise onStart(day) then onEnd('') |
| Days.ClickOnStartDay | components/DateRange/Days.tsx:88-97 | clicking the start day with no end emits an end equal to the start when the time of day is after midnight, and restarts at midnight |
| Days.ClickEndNotBeforeStart | components/DateRange/Days.tsx:88-89 | an end set by a click is never on a day before the start, and strictly after it at time of day 0 |
| Days.MouseEnter | components/DateRange/Days.tsx:101-105 | entering a cell can only ever set the hovered date to that cell's own date |
| Days.MouseEnterByDay | components/DateRange/Days.tsx:101-105 | entering a cell sets the hovered date exactly when the day is not past-disabled, a start is present and no end is |
| Days.Style | components/DateRange/Days.tsx:112-134 | a day is disabled exactly when it is out of the tab order, and the range/preview background never falls on a boundary day and always comes with the dark hover |
| Days.PastDayIsInert | components/DateRange/Days.tsx:83-134 | a past-disabled day emits nothing when clicked, sets no hovered date when entered, and is rendered disabled with tab index -1 |
| Days.BoundaryStyling | components/DateRange/Days.tsx:117-122 | the start and end days get boundary styling and never the range background; days strictly inside a well-ordered range get the background |
| Calendar.PrevMonthDays | components/DateRange/Calendar.tsx:32-40 | the leading fillers are f disabled cells of the previous month, on consecutive days ending at its last day |
| Calendar.CurrentMonthDays | components/DateRange/Calendar.tsx:52-55 | the month's cells are interactive, one per day, days 1 to the month's length in order |
| Calendar.NextMonthDays | components/DateRange/Calendar.tsx:75-84 | the trailing fillers number (7 - total mod 7) mod 7, fewer than 7, complete the last week, and are days 1 onward of the next month, disabled |
| Calendar.LeadingCount | components/DateRange/Calendar.tsx:91-92 | the number of leading fillers is between 0 and 6, and counting that many days back from the first of the month lands on a Sunday |
| Calendar.Grid | components/DateRange/Calendar.tsx:89-101 | the grid has a multiple of 7 cells, between 28 and 42, and its interactive cells are exactly the positions after the leading fillers, as many as the month has days |
| Calendar.GridInteractiveCount | components/DateRange/Calendar.tsx:54 | exactly as many interactive cells as the month has days |
| Calendar.GridDays | components/DateRange/Calendar.tsx:91-101 | the grid is a run of consecutive days starting on a Sunday, each cell under its own weekday column, its interactive cells being days 1.. of the view month |
| DateRange.CurrentDate | components/DateRange/index.tsx:18-21 | the view date is a valid date of the month `offset` months after the clock's, at the clock's time of day |
| DateRange.ViewMonthBijective | components/DateRange/index.tsx:18-21 | distinct offsets show distinct months, and every month is shown at some offset |
| DateRange.Apply | app/page.tsx:20-26 | the owner's handlers only change the strings; each string ends up as the text of the last call that sets it, and keeps its value when no call does |
| DateRange.Step | components/DateRange/index.tsx:23-33 | only navigation changes the offset, only clicks and Clear change the strings, only entering and leaving change the hovered date; leaving clears it and Clear empties both strings |
| DateRange.Picker | components/DateRange/index.tsx:58-67 | the rendered grid has whole weeks, 28 to 42 cells, and every button lies in the month `offset` months from the clock's |
| DateRange.PickerCells | components/DateRange/Calendar.tsx:46-101 | the picker's buttons are exactly the positions from the leading-filler count on, one per day of the shown month in order and under their weekday column; every button carries the classification and styling of its date at the clock's time of day, with the same start, end and hovered date for all cells; a button is disabled exactly when disablePast holds and its day is before today, and has boundary styling exactly when its date is the parsed start or end |
| DateRange.NavigationRoundTrip | components/DateRange/index.tsx:23-29 | previous and next move the offset by exactly one, change nothing else, and undo each other |
| DateRange.InitialIsEmpty | components/DateRange/index.tsx:15-16 | the picker starts at offset 0 with nothing hovered and nothing selected |
| DateRange.ClickStep | components/DateRange/Days.tsx:82-99 | a click leaves a past-disabled day's widget unchanged; with a start, no end and a day after the start it sets only the end to the day's text; otherwise the start becomes the day's text and the end is emptied |
| DateRange.ClickTransitions | components/DateRange/Days.tsx:82-98 | an enabled click restarts from Empty and Complete, and from PartialStart completes when after the start and restarts otherwise; a disabled click changes nothing |
| DateRange.StepPreservesInv | components/DateRange/Days.tsx:88-98 | every event keeps: an end only with a start, both reading as dates, the end never on a day before the start |
| DateRange.ClickTwiceFromEmpty | components/DateRange/Days.tsx:88 | clicking a day twice from nothing restarts at midnight but completes a one-day range at a later time of day |
| DateRange.HoverTransitions | components/DateRange/Days.tsx:101-131 | entering sets the hovered date only on an enabled day in PartialStart; leaving always clears it |
| Scenarios.FirstClickStarts | components/DateRange/Days.tsx:96-97 | with nothing selected, clicking 2024-03-15 gives start '2024-03-15' and end '' |
| Scenarios.EarlierClickRestarts | components/DateRange/Days.tsx:88-97 | with start 2024-03-15, clicking 2024-03-10 restarts at '2024-03-10' |
| Scenarios.LaterClickEnds | components/DateRange/Days.tsx:88-89 | with start 2024-03-15, clicking 2024-03-20 sets the end to '2024-03-20' |
| Scenarios.HoverThenCommit | components/DateRange/Days.tsx:56-68 | with start 2024-03-15, hovering 2024-03-20 marks days 15 to 20 as start or preview, and after committing that end they are boundaries or in range |
| Scenarios.ClickAfterRangeRestarts | components/DateRange/Days.tsx:88-97 | with the range 2024-03-01 to 2024-03-05, clicking 2024-03-10 restarts there |

## Left out

- Rendering: JSX, class-name strings, CSS, memoisation, and the month and weekday headers. Only the boolean conditions that feed the styling are modelled.
- Clock reads: `now` (a moment) and `today` (a day number) are parameters. The time of day `t` of the grid is the clock's at the last offset change.
- Timezones and daylight saving: every day is 86 400 000 ms long.
- `parseISO` accepts more ISO 8601 forms than `yyyy-MM-dd`, such as week dates and date-times. `IsoDate.Parse` reads only `yyyy-MM-dd`, the only non-empty form the picker and the page ever write.
- Undefined start/end props behave like empty strings (both are falsy in the source). The model takes strings.
- IsoDate.ParseFormat: stated for years 1 to 9999 only. date-fns writes year 0 and earlier as years of era (`0001` for year 0), and years past 9999 with five digits, which the reading does not give back.
- DateRange.StepPreservesInv: clicked cells are assumed to be in years 1 to 9999, for the same reason.
- Days.ResolveFormat: stated for years 1 to 9999 only, for the same reason: `10000-01-01` is written with a five-digit year and reads back as absent.
- DateRange.ClickTransitions: stated for clicked cells in years 1 to 9999 only; outside them the emitted text does not read back as the clicked date, so the phase after the click is not the one listed.
- DateRange.ClickTwiceFromEmpty: stated for cells in years 1 to 9999 only, for the same reason.
- DateRange.Picker: offsets and years are unbounded here, and a full grid is promised for every integer offset. JavaScript dates end at ±8.64e15 ms (years −271821 to 275760); past that, `addMonths` gives an Invalid Date, the grid comes out empty and the month header's `format` throws.
- DateRange.CurrentDate: a valid date is promised for every integer offset, beyond the JavaScript date range, for the same reason.
- DateRange.ViewMonthBijective: every month index is reached at some offset, including months outside the JavaScript date range, for the same reason.
- Days.PreviewByDay: stated only when the hovered date carries the cell's time of day. A hovered date left over from before a month change carries an older time; `Days.Classify` still covers that case exactly.
- The page's duration display: it uses floating-point division and `Math.ceil`.
- The "disable past dates" checkbox: `disablePast` is a parameter of every step.
- `PreviewMonth` is only a disabled button; it is modelled as an inert cell.
- `isWithinInterval` on a reversed interval: the component always checks that the end is after the start first.

=== FILE: calendar.dfy ===
/**
 * The month grid: the trailing days of the previous month up to the first
 * weekday of the month, every day of the month, and the leading days of the
 * next month up to the end of the last week. Only the month's own days are
 * interactive cells; the others are disabled filler.
 */
module Calendar {
  import opened Gregorian
  import opened Days

  /** A column of the week grid, Sunday = 0. */
  type WeekdayIndex = w: int | 0 <= w < 7

  datatype Cell = Filler(date: Date) | DayCell(date: Date)

  /** The last `f` days of the month before month index `mi`, ascending. */
  function PrevMonthDays(mi: int, f: WeekdayIndex): (cells: seq<Cell>)
    ensures |cells| == f
    ensures forall i :: 0 <= i < |cells| ==>
      cells[i].Filler? && ValidDate(cells[i].date) && MonthIndex(cells[i].date) == mi - 1
    ensures forall i :: 0 <= i < |cells| - 1 ==> cells[i + 1].date.day == cells[i].date.day + 1
    ensures |cells| > 0 ==> cells[|cells| - 1].date.day == DaysInMonthAt(mi - 1)
  {
    var last := DaysInMonthAt(mi - 1);
    MonthIndexRoundTrip(mi - 1);
    seq(f, i requires 0 <= i < f => Filler(Date(YearOf(mi - 1), MonthOf(mi - 1), last - f + i + 1)))
  }

  /** One interactive cell per day of month index `mi`, in order. */
  function CurrentMonthDays(mi: int): (cells: seq<Cell>)
    ensures |cells| == DaysInMonthAt(mi)
    ensures forall i :: 0 <= i < |cells| ==>
      && cells[i].DayCell? && ValidDate(cells[i].date)
      && MonthIndex(cells[i].date) == mi && cells[i].date.day == i + 1
  {
    var n := DaysInMonthAt(mi);
    MonthIndexRoundTrip(mi);
    seq(n, i requires 0 <= i < n => DayCell(Date(YearOf(mi), MonthOf(mi), i + 1)))
  }

  /**
   * The first days of the month after `mi`, as many as it takes to bring
   * `total` cells to a whole number of weeks (none when it already is).
   */
  function NextMonthDays(mi: int, total: nat): (cells: seq<Cell>)
    ensures |cells| < 7 && (total + |cells|) % 7 == 0
    ensures |cells| == (7 - total % 7) % 7
    ensures forall i :: 0 <= i < |cells| ==>
      && cells[i].Filler? && ValidDate(cells[i].date)
      && MonthIndex(cells[i].date) == mi + 1 && cells[i].date.day == i + 1
  {
    var remaining := (7 - total % 7) % 7;
    MonthIndexRoundTrip(mi + 1);
    if remaining == 0 then []
    else seq(remaining, i requires 0 <= i < remaining => Filler(Date(YearOf(mi + 1), MonthOf(mi + 1), i + 1)))
  }

  /**
   * The number of leading fillers: the weekday of the first day of month
   * index `mi`, so that counting that many days back lands on a Sunday.
   */
  function LeadingCount(mi: int): (f: WeekdayIndex)
    ensures Weekday(FirstDay(mi) - f) == 0
  {
    WeekdayFromSunday(FirstDay(mi), 0);
    Weekday(FirstDay(mi))
  }

  /** The whole grid of month index `mi`. */
  function Grid(mi: int): (g: seq<Cell>)
    ensures |g| % 7 == 0 && 28 <= |g| <= 42
    ensures forall i :: 0 <= i < |g| ==>
      (g[i].DayCell? <==> LeadingCount(mi) <= i < LeadingCount(mi) + DaysInMonthAt(mi))
    ensures forall i :: 0 <= i < |g| ==> ValidDate(g[i].date)
  {
    var prev := PrevMonthDays(mi, LeadingCount(mi));
    var current := CurrentMonthDays(mi);
    var next := NextMonthDays(mi, |prev| + |current|);
    ConcatShape(prev, current, next);
    prev + current + next
  }

  /** Fillers, then day cells, then fillers: the day cells sit exactly in the middle part. */
  lemma ConcatShape(a: seq<Cell>, b: seq<Cell>, c: seq<Cell>)
    requires forall i :: 0 <= i < |a| ==> a[i].Filler?
    requires forall i :: 0 <= i < |b| ==> b[i].DayCell?
    requires forall i :: 0 <= i < |c| ==> c[i].Filler?
    ensures forall i :: 0 <= i < |a + b + c| ==>
      ((a + b + c)[i].DayCell? <==> |a| <= i < |a| + |b|)
  {
    forall i | 0 <= i < |a + b + c|
      ensures (a + b + c)[i].DayCell? <==> |a| <= i < |a| + |b|
    {
      if i < |a| {
        assert (a + b + c)[i] == a[i];
      } else if i < |a| + |b| {
        assert (a + b + c)[i] == b[i - |a|];
      } else {
        assert (a + b + c)[i] == c[i - |a| - |b|];
      }
    }
  }

  /** The number of interactive cells in a sequence of cells. */
  function InteractiveCount(cells: seq<Cell>): nat {
    if |cells| == 0 then 0
    else InteractiveCount(cells[..|cells| - 1]) + (if cells[|cells| - 1].DayCell? then 1 else 0)
  }

  lemma {:induction false} InteractiveCountByIndex(cells: seq<Cell>, lo: int, hi: int)
    requires 0 <= lo <= hi <= |cells|
    requires forall i :: 0 <= i < |cells| ==> (cells[i].DayCell? <==> lo <= i < hi)
    ensures InteractiveCount(cells) == hi - lo
    decreases |cells|
  {
    if |cells| > 0 {
      var init := cells[..|cells| - 1];
      if hi == |cells| {
        if lo < hi {
          InteractiveCountByIndex(init, lo, hi - 1);
        } else {
          InteractiveCountByIndex(init, lo - 1, hi - 1);
        }
      } else {
        InteractiveCountByIndex(init, lo, hi);
      }
    }
  }

  /** Exactly the days of the month are interactive. */
  lemma GridInteractiveCount(mi: int)
    ensures InteractiveCount(Grid(mi)) == DaysInMonthAt(mi)
  {
    InteractiveCountByIndex(Grid(mi), LeadingCount(mi), LeadingCount(mi) + DaysInMonthAt(mi));
  }

  /** The leading fillers are the days just before the first of the month. */
  lemma PrevCellDay(mi: int, f: WeekdayIndex, i: int)
    requires 0 <= i < f
    ensures DayNumber(PrevMonthDays(mi, f)[i].date) == FirstDay(mi) - f + i
  {
    NextMonthStart(mi - 1);
    assert PrevMonthDays(mi, f)[i].date
      == Date(YearOf(mi - 1), MonthOf(mi - 1), DaysInMonthAt(mi - 1) - f + i + 1);
  }

  /** The trailing fillers are the days just after the month's last day. */
  lemma NextCellDay(mi: int, total: nat, i: int)
    requires 0 <= i < |NextMonthDays(mi, total)|
    ensures DayNumber(NextMonthDays(mi, total)[i].date) == FirstDay(mi) + DaysInMonthAt(mi) + i
  {
    NextMonthStart(mi);
    assert NextMonthDays(mi, total)[i].date == Date(YearOf(mi + 1), MonthOf(mi + 1), i + 1);
  }

  /** The day number of the cell at position `i` of the grid. */
  lemma GridCellDay(mi: int, i: int)
    requires 0 <= i < |Grid(mi)|
    ensures DayNumber(Grid(mi)[i].date) == FirstDay(mi) - LeadingCount(mi) + i
  {
    var f, n := LeadingCount(mi), DaysInMonthAt(mi);
    var prev, current := PrevMonthDays(mi, f), CurrentMonthDays(mi);
    var next := NextMonthDays(mi, |prev| + |current|);
    assert Grid(mi) == prev + current + next;
    if i < f {
      assert Grid(mi)[i] == prev[i];
      PrevCellDay(mi, f, i);
    } else if i < f + n {
      assert Grid(mi)[i] == current[i - f];
      assert current[i - f].date == Date(YearOf(mi), MonthOf(mi), i - f + 1);
    } else {
      assert Grid(mi)[i] == next[i - f - n];
      NextCellDay(mi, |prev| + |current|, i - f - n);
    }
  }

  /** Counting back from the first of the month by its weekday lands on a Sunday. */
  lemma WeekdayFromSunday(first: int, i: int)
    ensures Weekday(first - Weekday(first) + i) == i % 7
  {
  }

  /**
   * The grid is a run of consecutive calendar days that starts on a Sunday,
   * so every cell sits under its own weekday header; its interactive cells
   * are the month's days 1 to the month's length.
   */
  lemma GridDays(mi: int)
    ensures
      var g, f := Grid(mi), LeadingCount(mi);
      && (forall i :: 0 <= i < |g| ==> DayNumber(g[i].date) == FirstDay(mi) - f + i)
      && (forall i :: 0 <= i < |g| ==> Weekday(DayNumber(g[i].date)) == i % 7)
      && (forall i :: 0 <= i < |g| && g[i].DayCell? ==>
            MonthIndex(g[i].date) == mi && g[i].date.day == i - f + 1)
  {
    var g, f := Grid(mi), LeadingCount(mi);
    forall i | 0 <= i < |g|
      ensures DayNumber(g[i].date) == FirstDay(mi) - f + i
      ensures Weekday(DayNumber(g[i].date)) == i % 7
      ensures g[i].DayCell? ==> MonthIndex(g[i].date) == mi && g[i].date.day == i - f + 1
    {
      GridCellDay(mi, i);
      WeekdayFromSunday(FirstDay(mi), i);
      if g[i].DayCell? {
        assert g[i] == CurrentMonthDays(mi)[i - f];
      }
    }
  }

  /** What the grid shows in a cell: a disabled filler, or a classified day. */
  datatype CellView = Inert(day: int) | Button(date: Date, flags: DayFlags, style: DayStyle)

  /**
   * Renders a grid whose cells carry the time of day `time`; what the
   * rendered cells show is stated by `DateRange.PickerCells`.
   */
  function Render(grid: seq<Cell>, ctx: DayContext, time: int): seq<CellView> {
    seq(|grid|, i requires 0 <= i < |grid| =>
      match grid[i]
      case Filler(d) => Inert(d.day)
      case DayCell(d) =>
        var f := Classify(ctx, Moment(d, time));
        Button(d, f, Style(f)))
  }
}

=== FILE: daterange.dfy ===
/**
 * The picker as a whole, together with the page that owns the start/end
 * strings: the month offset and its navigation, the hovered date, the view
 * month derived from the clock, and the selection state machine that clicks,
 * hovers and the page's Clear action drive.
 */
module DateRange {
  import opened Wrappers
  import opened Gregorian
  import opened Days
  import IsoDate
  import Calendar

  /**
   * Everything an event can change: the page's start/end strings, and the
   * picker's month offset and hovered date.
   */
  datatype Widget = Widget(startStr: string, endStr: string, offset: int, hovered: Option<Moment>)

  /** Both strings empty, the current month shown, nothing hovered. */
  const Initial: Widget := Widget("", "", 0, None)

  datatype Event =
    | ClickDay(day: Moment)
    | EnterDay(day: Moment)
    | LeaveDay
    | PrevMonth
    | NextMonth
    | Clear

  /** Days the events name are real cells: valid dates at a time of day. */
  predicate ValidEvent(ev: Event) {
    (ev.ClickDay? || ev.EnterDay?) ==> ValidMoment(ev.day)
  }

  /** Cells of months whose dates the `yyyy-MM-dd` form writes back unchanged. */
  predicate Displayable(m: Moment) {
    ValidMoment(m) && 1 <= m.date.year <= 9999
  }

  function Context(w: Widget, disablePast: bool, today: int): DayContext {
    DayContext(w.startStr, w.endStr, w.hovered, disablePast, today)
  }

  /** The date the picker shows: the clock reading moved by `offset` months. */
  function CurrentDate(now: Moment, offset: int): (m: Moment)
    requires ValidMoment(now)
    ensures ValidMoment(m) && m.time == now.time
    ensures MonthIndex(m.date) == MonthIndex(now.date) + offset
  {
    Moment(AddMonths(now.date, offset), now.time)
  }

  /** The owner's string a call sets. */
  datatype Field = StartField | EndField

  predicate Sets(e: Emit, field: Field) {
    if field == StartField then e.OnStart? else e.OnEnd?
  }

  /** The text of the last call in `emits` that sets `field`, if any call does. */
  function LastSet(emits: seq<Emit>, field: Field): (r: Option<string>)
    ensures r.None? <==> forall i :: 0 <= i < |emits| ==> !Sets(emits[i], field)
    ensures r.Some? ==> exists i ::
      && 0 <= i < |emits| && Sets(emits[i], field) && emits[i].text == r.value
      && forall j :: i < j < |emits| ==> !Sets(emits[j], field)
    decreases |emits|
  {
    if |emits| == 0 then None
    else
      var later := LastSet(emits[1..], field);
      if later.Some? then
        var i :| 0 <= i < |emits| - 1 && Sets(emits[1..][i], field) && emits[1..][i].text == later.value
          && forall j :: i < j < |emits| - 1 ==> !Sets(emits[1..][j], field);
        assert forall j :: i + 1 < j < |emits| ==> emits[j] == emits[1..][j - 1];
        assert emits[i + 1] == emits[1..][i];
        later
      else
        assert forall j :: 0 < j < |emits| ==> emits[j] == emits[1..][j - 1];
        if Sets(emits[0], field) then Some(emits[0].text) else None
  }

  /**
   * The owner's handlers run in order, `onStart` setting the start and
   * `onEnd` the end: each string ends up as the text of the last call that
   * sets it, and keeps its value when no call does.
   */
  function Apply(w: Widget, emits: seq<Emit>): (r: Widget)
    ensures r.offset == w.offset && r.hovered == w.hovered
    ensures r.startStr == match LastSet(emits, StartField)
      case Some(text) => text
      case None => w.startStr
    ensures r.endStr == match LastSet(emits, EndField)
      case Some(text) => text
      case None => w.endStr
    decreases |emits|
  {
    if |emits| == 0 then w
    else
      var w' := match emits[0]
        case OnStart(s) => w.(startStr := s)
        case OnEnd(s) => w.(endStr := s);
      Apply(w', emits[1..])
  }

  function Step(w: Widget, ev: Event, disablePast: bool, today: int): (r: Widget)
    requires ValidEvent(ev)
    ensures r.startStr != w.startStr || r.endStr != w.endStr ==> ev.ClickDay? || ev.Clear?
    ensures r.offset != w.offset ==> ev.PrevMonth? || ev.NextMonth?
    ensures r.hovered != w.hovered ==> ev.EnterDay? || ev.LeaveDay?
    ensures ev.LeaveDay? ==> r.hovered == None
    ensures ev.Clear? ==> r.startStr == "" && r.endStr == ""
  {
    var ctx := Context(w, disablePast, today);
    match ev
    case ClickDay(d) => Apply(w, Click(ctx, d))
    case EnterDay(d) =>
      (match MouseEnter(ctx, d)
       case Some(h) => w.(hovered := Some(h))
       case None => w)
    case LeaveDay => w.(hovered := None)
    case PrevMonth => w.(offset := w.offset - 1)
    case NextMonth => w.(offset := w.offset + 1)
    case Clear => w.(startStr := "", endStr := "")
  }

  /** The cells the picker renders at clock reading `now`. */
  function Picker(w: Widget, now: Moment, disablePast: bool, today: int): (views: seq<Calendar.CellView>)
    requires ValidMoment(now)
    ensures |views| % 7 == 0 && 28 <= |views| <= 42
    ensures forall i :: 0 <= i < |views| && views[i].Button? ==>
      MonthIndex(views[i].date) == MonthIndex(now.date) + w.offset
  {
    var date := CurrentDate(now, w.offset);
    var mi := MonthIndex(date.date);
    Calendar.GridDays(mi);
    Calendar.Render(Calendar.Grid(mi), Context(w, disablePast, today), date.time)
  }

  /**
   * Cell by cell, what the picker shows for the month `offset` months from
   * the clock's: the buttons are exactly the positions from the month's
   * leading-filler count on, one per day of the month in order, each under
   * its own weekday column. Every button is classified and styled at the
   * clock's time of day with the same start, end and hovered date; a button is
   * disabled exactly when `disablePast` holds and its day is before today,
   * and it carries the boundary styling exactly when its date is the parsed
   * start or end date.
   */
  lemma PickerCells(w: Widget, now: Moment, disablePast: bool, today: int)
    requires ValidMoment(now)
    ensures
      var views, mi := Picker(w, now, disablePast, today), MonthIndex(now.date) + w.offset;
      var f, n := Calendar.LeadingCount(mi), DaysInMonthAt(mi);
      && (forall i :: 0 <= i < |views| ==> (views[i].Button? <==> f <= i < f + n))
      && (forall i :: 0 <= i < |views| && views[i].Button? ==>
            && MonthIndex(views[i].date) == mi && views[i].date.day == i - f + 1
            && Weekday(DayNumber(views[i].date)) == i % 7
            && (views[i].style.disabled <==> disablePast && DayNumber(views[i].date) < today)
            && (views[i].style.boundary <==>
                  Resolve(w.startStr) == Some(views[i].date) || Resolve(w.endStr) == Some(views[i].date)))
    ensures
      var views := Picker(w, now, disablePast, today);
      forall i :: 0 <= i < |views| && views[i].Button? ==>
        && views[i].flags == Classify(Context(w, disablePast, today), Moment(views[i].date, now.time))
        && views[i].style == Style(views[i].flags)
  {
    var date := CurrentDate(now, w.offset);
    var mi := MonthIndex(date.date);
    var grid, ctx := Calendar.Grid(mi), Context(w, disablePast, today);
    var views := Picker(w, now, disablePast, today);
    assert views == Calendar.Render(grid, ctx, date.time);
    Calendar.GridDays(mi);
    forall i | 0 <= i < |views| && views[i].Button?
      ensures views[i].style.disabled <==> disablePast && DayNumber(views[i].date) < today
      ensures views[i].style.boundary <==>
        Resolve(w.startStr) == Some(views[i].date) || Resolve(w.endStr) == Some(views[i].date)
    {
      var cell := Moment(grid[i].date, date.time);
      PastDisabledByDay(ctx, cell);
      StartDayByDate(ctx, cell);
      EndDayByDate(ctx, cell);
    }
  }

  // ---------------------------------------------------------------------
  // Navigation
  // ---------------------------------------------------------------------

  /** Previous and next undo each other, and leave the selection and hover alone. */
  lemma NavigationRoundTrip(w: Widget, disablePast: bool, today: int)
    ensures Step(w, PrevMonth, disablePast, today) == w.(offset := w.offset - 1)
    ensures Step(w, NextMonth, disablePast, today) == w.(offset := w.offset + 1)
    ensures Step(Step(w, PrevMonth, disablePast, today), NextMonth, disablePast, today) == w
    ensures Step(Step(w, NextMonth, disablePast, today), PrevMonth, disablePast, today) == w
  {
  }

  /** Every month is shown at exactly one offset. */
  lemma ViewMonthBijective(now: Moment, a: int, b: int, mi: int)
    requires ValidMoment(now)
    ensures MonthIndex(CurrentDate(now, a).date) == MonthIndex(CurrentDate(now, b).date) <==> a == b
    ensures MonthIndex(CurrentDate(now, mi - MonthIndex(now.date)).date) == mi
  {
  }

  // ---------------------------------------------------------------------
  // The selection state machine
  // ---------------------------------------------------------------------

  /** The selection as the cells read it. */
  datatype Phase = Empty | PartialStart(start: Date) | Complete(start: Date, end: Date)

  function PhaseOf(w: Widget): Phase {
    match (Resolve(w.startStr), Resolve(w.endStr))
    case (None, _) => Empty
    case (Some(s), None) => PartialStart(s)
    case (Some(s), Some(e)) => Complete(s, e)
  }

  /**
   * What clicks and Clear keep true of the page's strings: an end is only
   * held together with a start, every held string reads as a date, and the
   * end is never on a calendar day before the start.
   */
  predicate Inv(w: Widget) {
    && (w.startStr != "" ==> Resolve(w.startStr).Some?)
    && (w.endStr != "" ==>
          && Resolve(w.startStr).Some? && Resolve(w.endStr).Some?
          && DayNumber(Resolve(w.startStr).value) <= DayNumber(Resolve(w.endStr).value))
  }

  lemma InitialIsEmpty()
    ensures Inv(Initial) && PhaseOf(Initial) == Empty
    ensures Initial.offset == 0 && Initial.hovered == None
  {
  }

  /**
   * A click on a day in calendar days: a past-disabled day changes nothing;
   * otherwise it sets the end to the day when a start is present, no end is
   * and the day is after the start, and in every other case restarts at the
   * day with an empty end.
   */
  lemma ClickStep(w: Widget, d: Moment, disablePast: bool, today: int)
    requires ValidMoment(d)
    ensures Step(w, ClickDay(d), disablePast, today) ==
      var start, text := Resolve(w.startStr), IsoDate.Format(d.date);
      if disablePast && DayNumber(d.date) < today then w
      else if start.Some? && Resolve(w.endStr).None? && AfterStart(start.value, d)
      then w.(endStr := text)
      else w.(startStr := text, endStr := "")
  {
    var emits := Click(Context(w, disablePast, today), d);
    assert Step(w, ClickDay(d), disablePast, today) == Apply(w, emits);
    if |emits| == 2 {
      assert emits[1..] == [emits[1]];
    }
  }

  /**
   * A click on a day that is not past-disabled: from Empty and from Complete
   * it restarts at the day; from PartialStart it completes the range when the
   * day is after the start and restarts otherwise. A past-disabled day
   * changes nothing. Clicks never touch the offset or the hovered date.
   */
  lemma ClickTransitions(w: Widget, d: Moment, disablePast: bool, today: int)
    requires Inv(w) && Displayable(d)
    ensures
      var r := Step(w, ClickDay(d), disablePast, today);
      && r.offset == w.offset && r.hovered == w.hovered
      && (disablePast && DayNumber(d.date) < today ==> r == w)
      && (!(disablePast && DayNumber(d.date) < today) ==>
            PhaseOf(r) == match PhaseOf(w)
              case Empty => PartialStart(d.date)
              case PartialStart(s) => if AfterStart(s, d) then Complete(s, d.date) else PartialStart(d.date)
              case Complete(_, _) => PartialStart(d.date))
  {
    ClickStep(w, d, disablePast, today);
    ResolveFormat(d.date);
    var r := Step(w, ClickDay(d), disablePast, today);
    if !(disablePast && DayNumber(d.date) < today) {
      var start := Resolve(w.startStr);
      if start.Some? && Resolve(w.endStr).None? && AfterStart(start.value, d) {
        assert PhaseOf(w) == PartialStart(start.value);
        assert PhaseOf(r) == Complete(start.value, d.date);
      } else {
        assert Resolve(r.startStr) == Some(d.date) && Resolve(r.endStr) == None;
        assert PhaseOf(r) == PartialStart(d.date);
      }
    }
  }

  /** Every event keeps the invariant of the page's strings. */
  lemma StepPreservesInv(w: Widget, ev: Event, disablePast: bool, today: int)
    requires Inv(w) && ValidEvent(ev)
    requires ev.ClickDay? ==> Displayable(ev.day)
    ensures Inv(Step(w, ev, disablePast, today))
  {
    if ev.ClickDay? {
      ClickStep(w, ev.day, disablePast, today);
      ResolveFormat(ev.day.date);
    }
  }

  /**
   * Clicking the same enabled day twice from Empty: at midnight the second
   * click restarts at the day, but at any later time of day it completes a
   * range whose end is the start date itself.
   */
  lemma ClickTwiceFromEmpty(w: Widget, d: Moment, disablePast: bool, today: int)
    requires Inv(w) && PhaseOf(w) == Empty && Displayable(d)
    requires !(disablePast && DayNumber(d.date) < today)
    ensures
      var r := Step(Step(w, ClickDay(d), disablePast, today), ClickDay(d), disablePast, today);
      && (d.time == 0 ==> PhaseOf(r) == PartialStart(d.date))
      && (d.time > 0 ==> PhaseOf(r) == Complete(d.date, d.date))
  {
    var once := Step(w, ClickDay(d), disablePast, today);
    ClickTransitions(w, d, disablePast, today);
    StepPreservesInv(w, ClickDay(d), disablePast, today);
    ClickTransitions(once, d, disablePast, today);
  }

  /**
   * Entering a day sets the hovered date to it exactly when the day is not
   * past-disabled and the selection is PartialStart; leaving any day clears it.
   */
  lemma HoverTransitions(w: Widget, d: Moment, disablePast: bool, today: int)
    requires ValidMoment(d)
    ensures Step(w, EnterDay(d), disablePast, today) ==
      if !(disablePast && DayNumber(d.date) < today) && PhaseOf(w).PartialStart?
      then w.(hovered := Some(d))
      else w
    ensures Step(w, LeaveDay, disablePast, today) == w.(hovered := None)
  {
    MouseEnterByDay(Context(w, disablePast, today), d);
  }
}

=== FILE: days.dfy ===
/**
 * One interactive day cell of the picker: how the start/end strings, the
 * hovered date, `disablePast` and today classify the cell, what a click on
 * it emits to the owner, when the mouse entering it sets the hovered
 * date, and which styling conditions follow from the classification.
 *
 * Time is counted in milliseconds. A cell's date is a calendar day plus a
 * time of day (cells are built from the current clock reading, so they all
 * carry the same time of day `t`), while parsed start/end dates and "today"
 * are midnights. The comparisons below are on those instants, not on
 * calendar days; the lemmas restate each of them in calendar days.
 */
module Days {
  import opened Wrappers
  import opened Gregorian
  import IsoDate

  const MS_PER_DAY: int := 86_400_000

  /** A calendar date together with milliseconds elapsed since its midnight. */
  datatype Moment = Moment(date: Date, time: int)

  predicate ValidMoment(m: Moment) {
    ValidDate(m.date) && 0 <= m.time < MS_PER_DAY
  }

  /** Milliseconds since 1970-01-01 00:00 (timezone and DST left out). */
  function Instant(m: Moment): int {
    DayNumber(m.date) * MS_PER_DAY + m.time
  }

  function Midnight(d: Date): int {
    DayNumber(d) * MS_PER_DAY
  }

  /** date-fns `isSameDay`: both instants fall in the same day. */
  predicate SameDay(a: int, b: int) {
    a / MS_PER_DAY == b / MS_PER_DAY
  }

  /**
   * date-fns `isWithinInterval`, inclusive at both ends. The picker only
   * asks it after checking that the interval's end is after its start.
   */
  predicate Within(x: int, lo: int, hi: int) {
    lo <= x <= hi
  }

  /** A start/end prop as the cell reads it: empty or unparseable means absent. */
  function Resolve(s: string): (r: Option<Date>)
    ensures s == "" ==> r == None
    ensures r.Some? ==> ValidDate(r.value)
  {
    if s == "" then None else IsoDate.Parse(s)
  }

  /** What a cell knows when it renders. `today` is a day number. */
  datatype DayContext = DayContext(
    startStr: string,
    endStr: string,
    hovered: Option<Moment>,
    disablePast: bool,
    today: int)

  /** The derived flags of one cell; they are independent booleans, not one state. */
  datatype DayFlags = DayFlags(
    pastDisabled: bool,
    isStart: bool,
    isEnd: bool,
    inRange: bool,
    previewing: bool)

  function Classify(ctx: DayContext, day: Moment): (f: DayFlags)
    ensures f.inRange ==> Resolve(ctx.startStr).Some? && Resolve(ctx.endStr).Some?
    ensures f.previewing ==>
      Resolve(ctx.startStr).Some? && Resolve(ctx.endStr).None? && ctx.hovered.Some?
    ensures !(f.inRange && f.previewing)
  {
    var at := Instant(day);
    var start := Resolve(ctx.startStr);
    var end := Resolve(ctx.endStr);
    DayFlags(
      pastDisabled := ctx.disablePast && at < ctx.today * MS_PER_DAY,
      isStart := start.Some? && SameDay(at, Midnight(start.value)),
      isEnd := end.Some? && SameDay(at, Midnight(end.value)),
      inRange :=
        && start.Some? && end.Some?
        && Midnight(end.value) > Midnight(start.value)
        && Within(at, Midnight(start.value), Midnight(end.value)),
      previewing :=
        && start.Some? && end.None? && ctx.hovered.Some?
        && Instant(ctx.hovered.value) > Midnight(start.value)
        && Within(at, Midnight(start.value), Instant(ctx.hovered.value)))
  }

  /**
   * The cell's day is after `start`: the cell's instant is later than the
   * start's midnight, so the start day itself counts after midnight.
   */
  predicate AfterStart(start: Date, day: Moment) {
    DayNumber(start) < DayNumber(day.date) || (DayNumber(start) == DayNumber(day.date) && day.time > 0)
  }

  /** A call the cell makes on its owner: `onStart(text)` or `onEnd(text)`. */
  datatype Emit = OnStart(text: string) | OnEnd(text: string)

  /**
   * The calls a click on the cell makes, in order, stated in calendar days:
   * a past-disabled day emits nothing. Otherwise the click sets the end when
   * a start is present, no end is, and the day is after the start day (or is
   * the start day at a time of day after midnight); every other click
   * restarts the selection at the day and clears the end.
   */
  function Click(ctx: DayContext, day: Moment): (r: seq<Emit>)
    requires ValidMoment(day)
    ensures r ==
      var start, text := Resolve(ctx.startStr), IsoDate.Format(day.date);
      if ctx.disablePast && DayNumber(day.date) < ctx.today then []
      else if start.Some? && Resolve(ctx.endStr).None? && AfterStart(start.value, day)
      then [OnEnd(text)]
      else [OnStart(text), OnEnd("")]
  {
    PastDisabledByDay(ctx, day);
    var start := Resolve(ctx.startStr);
    var end := Resolve(ctx.endStr);
    var text := IsoDate.Format(day.date);
    if Classify(ctx, day).pastDisabled then []
    else if start.None? then [OnStart(text), OnEnd("")]
    else
      InstantLess(DayNumber(start.value), 0, DayNumber(day.date), day.time);
      if end.None? && Instant(day) > Midnight(start.value) then [OnEnd(text)]
      else [OnStart(text), OnEnd("")]
  }

  /** The date the cell passes to `setHoveredDate` when the mouse enters it, if any. */
  function MouseEnter(ctx: DayContext, day: Moment): (r: Option<Moment>)
    ensures r.Some? ==> r.value == day
  {
    if !Classify(ctx, day).pastDisabled
       && Resolve(ctx.startStr).Some? && Resolve(ctx.endStr).None?
    then Some(day)
    else None
  }

  /** The styling conditions of a cell. */
  datatype DayStyle = DayStyle(
    disabled: bool,
    tabIndex: int,
    shaded: bool,
    darkOnHover: bool,
    boundary: bool)

  function Style(f: DayFlags): (st: DayStyle)
    ensures st.disabled <==> st.tabIndex == -1
    ensures st.tabIndex == -1 || st.tabIndex == 0
    ensures st.shaded ==> st.darkOnHover && !st.boundary
  {
    DayStyle(
      disabled := f.pastDisabled,
      tabIndex := if f.pastDisabled then -1 else 0,
      shaded := (f.inRange || f.previewing) && !f.isStart && !f.isEnd,
      darkOnHover := f.inRange || f.previewing,
      boundary := f.isStart || f.isEnd)
  }

  // ---------------------------------------------------------------------
  // Instants versus calendar days
  // ---------------------------------------------------------------------

  lemma InstantDay(n: int, t: int)
    requires 0 <= t < MS_PER_DAY
    ensures (n * MS_PER_DAY + t) / MS_PER_DAY == n
  {
  }

  /** Instants of two times of day compare by day first, then by time. */
  lemma InstantLess(a: int, ta: int, b: int, tb: int)
    requires 0 <= ta < MS_PER_DAY && 0 <= tb < MS_PER_DAY
    ensures a * MS_PER_DAY + ta < b * MS_PER_DAY + tb <==> a < b || (a == b && ta < tb)
  {
    if a < b {
      assert a * MS_PER_DAY + MS_PER_DAY <= b * MS_PER_DAY;
    } else if b < a {
      assert b * MS_PER_DAY + MS_PER_DAY <= a * MS_PER_DAY;
    }
  }

  /** A parsed start/end is the midnight of a valid date. */
  lemma ResolveFormat(d: Date)
    requires ValidDate(d) && 1 <= d.year <= 9999
    ensures Resolve(IsoDate.Format(d)) == Some(d)
  {
    IsoDate.ParseFormat(d);
  }

  // ---------------------------------------------------------------------
  // The classification in calendar days
  // ---------------------------------------------------------------------

  /** A day is past-disabled exactly when `disablePast` holds and it is before today. */
  lemma PastDisabledByDay(ctx: DayContext, day: Moment)
    requires ValidMoment(day)
    ensures Classify(ctx, day).pastDisabled
      <==> ctx.disablePast && DayNumber(day.date) < ctx.today
  {
    InstantLess(DayNumber(day.date), day.time, ctx.today, 0);
  }

  /** The start flag marks exactly the cell whose date is the parsed start date. */
  lemma StartDayByDate(ctx: DayContext, day: Moment)
    requires ValidMoment(day)
    ensures Classify(ctx, day).isStart <==> Resolve(ctx.startStr) == Some(day.date)
  {
    var start := Resolve(ctx.startStr);
    InstantDay(DayNumber(day.date), day.time);
    if start.Some? {
      InstantDay(DayNumber(start.value), 0);
      DayNumberInjective(day.date, start.value);
    }
  }

  /** The end flag marks exactly the cell whose date is the parsed end date. */
  lemma EndDayByDate(ctx: DayContext, day: Moment)
    requires ValidMoment(day)
    ensures Classify(ctx, day).isEnd <==> Resolve(ctx.endStr) == Some(day.date)
  {
    var end := Resolve(ctx.endStr);
    InstantDay(DayNumber(day.date), day.time);
    if end.Some? {
      InstantDay(DayNumber(end.value), 0);
      DayNumberInjective(day.date, end.value);
    }
  }

  /**
   * In calendar days: a cell is in range when both ends are present, the end
   * day is after the start day, and the cell's day lies from the start day up
   * to the end day, where the end day itself only counts at time of day 0.
   */
  lemma InRangeByDay(ctx: DayContext, day: Moment)
    requires ValidMoment(day)
    ensures Classify(ctx, day).inRange <==>
      var start, end := Resolve(ctx.startStr), Resolve(ctx.endStr);
      && start.Some? && end.Some?
      && DayNumber(start.value) < DayNumber(end.value)
      && DayNumber(start.value) <= DayNumber(day.date)
      && (DayNumber(day.date) < DayNumber(end.value)
          || (DayNumber(day.date) == DayNumber(end.value) && day.time == 0))
  {
    var start, end := Resolve(ctx.startStr), Resolve(ctx.endStr);
    if start.Some? && end.Some? {
      var n, s, e := DayNumber(day.date), DayNumber(start.value), DayNumber(end.value);
      InstantLess(n, day.time, s, 0);
      InstantLess(e, 0, n, day.time);
    }
  }

  /**
   * In calendar days, for a hovered cell of the same grid (same time of day):
   * the preview covers the days from the start day up to the hovered day,
   * and is on when the hovered day is after the start day, or is the start
   * day itself at a time of day after midnight.
   */
  lemma PreviewByDay(ctx: DayContext, day: Moment)
    requires ValidMoment(day)
    requires ctx.hovered.Some? && ValidMoment(ctx.hovered.value)
    requires ctx.hovered.value.time == day.time
    ensures Classify(ctx, day).previewing <==>
      var start, h := Resolve(ctx.startStr), DayNumber(ctx.hovered.value.date);
      && start.Some? && Resolve(ctx.endStr).None?
      && AfterStart(start.value, ctx.hovered.value)
      && DayNumber(start.value) <= DayNumber(day.date) <= h
  {
    var start := Resolve(ctx.startStr);
    if start.Some? {
      var n, s, h := DayNumber(day.date), DayNumber(start.value), DayNumber(ctx.hovered.value.date);
      InstantLess(s, 0, h, day.time);
      InstantLess(n, day.time, s, 0);
      InstantLess(h, day.time, n, day.time);
    }
  }

  /**
   * For a well-ordered range, every day from start to end is a boundary or
   * in range, and no day outside it is in range.
   */
  lemma RangeCoverage(ctx: DayContext, day: Moment)
    requires ValidMoment(day)
    requires Resolve(ctx.startStr).Some? && Resolve(ctx.endStr).Some?
    requires DayNumber(Resolve(ctx.startStr).value) < DayNumber(Resolve(ctx.endStr).value)
    ensures
      var f, n := Classify(ctx, day), DayNumber(day.date);
      var s, e := DayNumber(Resolve(ctx.startStr).value), DayNumber(Resolve(ctx.endStr).value);
      && (s <= n <= e ==> f.isStart || f.isEnd || f.inRange)
      && (n < s || e < n ==> !f.inRange)
  {
    InRangeByDay(ctx, day);
    EndDayByDate(ctx, day);
    DayNumberInjective(day.date, Resolve(ctx.endStr).value);
  }

  // ---------------------------------------------------------------------
  // Click and hover in calendar days
  // ---------------------------------------------------------------------

  /**
   * Clicking the start day again while no end is set: after midnight it sets
   * the end to the start date itself; exactly at midnight it restarts.
   */
  lemma ClickOnStartDay(ctx: DayContext, day: Moment)
    requires ValidMoment(day)
    requires Resolve(ctx.startStr) == Some(day.date) && Resolve(ctx.endStr).None?
    requires !(ctx.disablePast && DayNumber(day.date) < ctx.today)
    ensures day.time > 0 ==> Click(ctx, day) == [OnEnd(IsoDate.Format(day.date))]
    ensures day.time == 0 ==>
      Click(ctx, day) == [OnStart(IsoDate.Format(day.date)), OnEnd("")]
  {
  }

  /**
   * An end emitted by a click is never on a calendar day before the start,
   * and is strictly after it when the cell's time of day is midnight.
   */
  lemma ClickEndNotBeforeStart(ctx: DayContext, day: Moment)
    requires ValidMoment(day)
    requires Click(ctx, day) == [OnEnd(IsoDate.Format(day.date))]
    ensures Resolve(ctx.startStr).Some?
    ensures DayNumber(Resolve(ctx.startStr).value) <= DayNumber(day.date)
    ensures day.time == 0 ==> DayNumber(Resolve(ctx.startStr).value) < DayNumber(day.date)
  {
  }

  /**
   * Entering a cell sets the hovered date exactly when the day is not
   * past-disabled, a start is present and no end is.
   */
  lemma MouseEnterByDay(ctx: DayContext, day: Moment)
    requires ValidMoment(day)
    ensures MouseEnter(ctx, day).Some? <==>
      && !(ctx.disablePast && DayNumber(day.date) < ctx.today)
      && Resolve(ctx.startStr).Some? && Resolve(ctx.endStr).None?
  {
    PastDisabledByDay(ctx, day);
  }

  /**
   * A past-disabled day is inert: a click emits nothing, entering it does not
   * set the hovered date, and it is rendered disabled and out of the tab order.
   */
  lemma PastDayIsInert(ctx: DayContext, day: Moment)
    requires ValidMoment(day)
    requires ctx.disablePast && DayNumber(day.date) < ctx.today
    ensures Click(ctx, day) == []
    ensures MouseEnter(ctx, day) == None
    ensures Style(Classify(ctx, day)).disabled && Style(Classify(ctx, day)).tabIndex == -1
  {
    PastDisabledByDay(ctx, day);
  }

  /**
   * The start and end days get the boundary styling, never the range or
   * preview background; days strictly inside a well-ordered range get the
   * background.
   */
  lemma BoundaryStyling(ctx: DayContext, day: Moment)
    requires ValidMoment(day)
    ensures
      var st, start, end := Style(Classify(ctx, day)), Resolve(ctx.startStr), Resolve(ctx.endStr);
      && (start == Some(day.date) || end == Some(day.date) ==> st.boundary && !st.shaded)
      && ((start.Some? && end.Some?
           && DayNumber(start.value) < DayNumber(day.date) < DayNumber(end.value)) ==> st.shaded)
  {
    StartDayByDate(ctx, day);
    EndDayByDate(ctx, day);
    InRangeByDay(ctx, day);
    var start, end := Resolve(ctx.startStr), Resolve(ctx.endStr);
    if start.Some? {
      DayNumberInjective(day.date, start.value);
    }
    if end.Some? {
      DayNumberInjective(day.date, end.value);
    }
  }
}

=== FILE: gregorian.dfy ===
/**
 * Proleptic Gregorian calendar arithmetic: days in a month, day numbers,
 * weekdays, month indices and month addition with day-of-month clamping.
 * Days are numbered from 1970-01-01 (day 0); weekdays count from Sunday = 0,
 * as JavaScript's `Date.getDay` does.
 */
module Gregorian {

  /** A month of the year, January = 1. */
  type Month = m: int | 1 <= m <= 12 witness 1

  /** A calendar date without time of day. */
  datatype Date = Date(year: int, month: Month, day: int)

  predicate IsLeapYear(y: int) {
    y % 4 == 0 && (y % 100 != 0 || y % 400 == 0)
  }

  function DaysInMonth(y: int, m: Month): (n: int)
    ensures 28 <= n <= 31
    ensures m == 2 ==> (n == 29 <==> IsLeapYear(y))
  {
    if m == 2 then (if IsLeapYear(y) then 29 else 28)
    else if m == 4 || m == 6 || m == 9 || m == 11 then 30
    else 31
  }

  predicate ValidDate(d: Date) {
    1 <= d.day <= DaysInMonth(d.year, d.month)
  }

  /** Days of year `y` that lie in the months before month `m`. */
  function DaysBeforeMonth(y: int, m: Month): int {
    [0, 31, 59, 90, 120, 151, 181, 212, 243, 273, 304, 334][m - 1]
    + (if m > 2 && IsLeapYear(y) then 1 else 0)
  }

  /** Signed count of leap years between year 0 and year `y`. */
  function LeapYearsBefore(y: int): int {
    (y + 3) / 4 - (y + 99) / 100 + (y + 399) / 400
  }

  /** Day number of January 1st of year `y`. */
  function YearStart(y: int): int {
    365 * y + LeapYearsBefore(y) - 719528
  }

  /** Day number of a date: days elapsed since 1970-01-01. */
  function DayNumber(d: Date): int {
    YearStart(d.year) + DaysBeforeMonth(d.year, d.month) + d.day - 1
  }

  /** Day of the week of a day number, Sunday = 0 (1970-01-01 was a Thursday). */
  function Weekday(n: int): (w: int)
    ensures 0 <= w < 7
  {
    (n + 4) % 7
  }

  /** Months counted from January of year 0; one step is one calendar month. */
  function MonthIndex(d: Date): int {
    d.year * 12 + d.month - 1
  }

  function YearOf(mi: int): int {
    mi / 12
  }

  function MonthOf(mi: int): Month {
    mi % 12 + 1
  }

  function DaysInMonthAt(mi: int): (n: int)
    ensures 28 <= n <= 31
  {
    DaysInMonth(YearOf(mi), MonthOf(mi))
  }

  /** Day number of the first day of month index `mi`. */
  function FirstDay(mi: int): int {
    DayNumber(Date(YearOf(mi), MonthOf(mi), 1))
  }

  /**
   * Moves a date by `k` calendar months. When the day of month does not exist
   * in the target month it is clamped to that month's last day, as date-fns
   * `addMonths` does.
   */
  function AddMonths(d: Date, k: int): (r: Date)
    requires ValidDate(d)
    ensures ValidDate(r)
    ensures MonthIndex(r) == MonthIndex(d) + k
    ensures r.day <= d.day
    ensures r.day == d.day || r.day == DaysInMonth(r.year, r.month)
  {
    var mi := MonthIndex(d) + k;
    var last := DaysInMonthAt(mi);
    Date(YearOf(mi), MonthOf(mi), if d.day <= last then d.day else last)
  }

  /** The year and month of a month index round-trip through `MonthIndex`. */
  lemma MonthIndexRoundTrip(mi: int)
    ensures MonthIndex(Date(YearOf(mi), MonthOf(mi), 1)) == mi
  {
  }

  /** A year is 366 days long exactly when it is a leap year. */
  lemma YearLength(y: int)
    ensures YearStart(y + 1) - YearStart(y) == if IsLeapYear(y) then 366 else 365
  {
    LeapYearStep(y);
  }

  /** Exactly the leap years add one to the leap-year count. */
  lemma LeapYearStep(y: int)
    ensures LeapYearsBefore(y + 1) - LeapYearsBefore(y) == if IsLeapYear(y) then 1 else 0
  {
    CrossesMultiple(y, 4);
    CrossesMultiple(y, 100);
    CrossesMultiple(y, 400);
    LeapByDivisors(y);
  }

  /** The leap-year rule as a sum over divisors 4, 100 and 400. */
  lemma LeapByDivisors(y: int)
    ensures (if y % 4 == 0 then 1 else 0) - (if y % 100 == 0 then 1 else 0)
      + (if y % 400 == 0 then 1 else 0) == if IsLeapYear(y) then 1 else 0
  {
    if y % 400 == 0 {
      assert y == 100 * (4 * (y / 400));
    }
    if y % 100 == 0 {
      assert y == 4 * (25 * (y / 100));
    }
  }

  /** Going from `y + k - 1` to `y + k` crosses a multiple of `k` exactly when `k` divides `y`. */
  lemma CrossesMultiple(y: int, k: int)
    requires k == 4 || k == 100 || k == 400
    ensures (y + k) / k - (y + k - 1) / k == if y % k == 0 then 1 else 0
  {
    var q, r := y / k, y % k;
    assert y == q * k + r && 0 <= r < k;
    assert (y + k) / k == q + 1 by {
      assert y + k == (q + 1) * k + r;
    }
    if r == 0 {
      assert y + k - 1 == q * k + (k - 1);
    } else {
      assert y + k - 1 == (q + 1) * k + (r - 1);
    }
  }

  /** Each month starts the day after the previous month's last day. */
  lemma NextMonthStart(mi: int)
    ensures FirstDay(mi + 1) == FirstDay(mi) + DaysInMonthAt(mi)
  {
    var y, m := YearOf(mi), MonthOf(mi);
    if m == 12 {
      assert YearOf(mi + 1) == y + 1 && MonthOf(mi + 1) == 1;
      YearLength(y);
    } else {
      assert YearOf(mi + 1) == y && MonthOf(mi + 1) == m + 1;
    }
  }

  /** Calendar order of dates: by year, then month, then day. */
  predicate Before(a: Date, b: Date) {
    a.year < b.year
    || (a.year == b.year && a.month < b.month)
    || (a.year == b.year && a.month == b.month && a.day < b.day)
  }

  /** Later years start at least a year later. */
  lemma {:induction false} YearStartGrows(y: int, y': int)
    requires y < y'
    ensures YearStart(y) + 365 <= YearStart(y')
    decreases y' - y
  {
    YearLength(y' - 1);
    if y < y' - 1 {
      YearStartGrows(y, y' - 1);
    }
  }

  /** The days of an earlier month of the same year all come before a later month. */
  lemma MonthEndsBefore(y: int, m: Month, m': Month)
    requires m < m'
    ensures DaysBeforeMonth(y, m) + DaysInMonth(y, m) <= DaysBeforeMonth(y, m')
  {
  }

  /** A valid date falls inside its own year. */
  lemma WithinYear(d: Date)
    requires ValidDate(d)
    ensures YearStart(d.year) <= DayNumber(d) < YearStart(d.year + 1)
  {
    YearLength(d.year);
  }

  /** Day numbers order valid dates exactly as the calendar does. */
  lemma DayNumberOrder(a: Date, b: Date)
    requires ValidDate(a) && ValidDate(b)
    ensures DayNumber(a) < DayNumber(b) <==> Before(a, b)
  {
    WithinYear(a);
    WithinYear(b);
    if a.year < b.year {
      YearStartGrows(a.year, b.year);
      if a.year + 1 < b.year {
        YearStartGrows(a.year + 1, b.year);
      }
    } else if b.year < a.year {
      YearStartGrows(b.year, a.year);
      if b.year + 1 < a.year {
        YearStartGrows(b.year + 1, a.year);
      }
    } else if a.month < b.month {
      MonthEndsBefore(a.year, a.month, b.month);
    } else if b.month < a.month {
      MonthEndsBefore(a.year, b.month, a.month);
    }
  }

  /** Distinct valid dates have distinct day numbers. */
  lemma DayNumberInjective(a: Date, b: Date)
    requires ValidDate(a) && ValidDate(b)
    ensures DayNumber(a) == DayNumber(b) <==> a == b
  {
    DayNumberOrder(a, b);
    DayNumberOrder(b, a);
  }

  /**
   * The numbering is anchored where JavaScript's is: 1970-01-01 is day 0, a
   * Thursday; 2000-01-01 was a Saturday and 2024-03-10 a Sunday.
   */
  lemma WeekdayAnchors()
    ensures DayNumber(Date(1970, 1, 1)) == 0 && Weekday(0) == 4
    ensures Weekday(DayNumber(Date(2000, 1, 1))) == 6
    ensures Weekday(DayNumber(Date(2024, 3, 10))) == 0
  {
    assert LeapYearsBefore(1970) == 478;
    assert LeapYearsBefore(2000) == 485;
    assert LeapYearsBefore(2024) == 491;
    assert DayNumber(Date(2000, 1, 1)) == 10957;
    assert DayNumber(Date(2024, 3, 10)) == 19792;
  }
}

=== FILE: isodate.dfy ===
/**
 * The `yyyy-MM-dd` text form in which the picker hands dates to its owner,
 * and the reading of that form back into a date. Formatting follows date-fns
 * `format(day, 'yyyy-MM-dd')`: the year of era padded to at least four
 * digits, month and day padded to two. Parsing accepts exactly the
 * `yyyy-MM-dd` shape and rejects dates that do not exist, as date-fns
 * `parseISO` followed by `isValid` does for that shape.
 */
module IsoDate {
  import opened Wrappers
  import opened Gregorian

  predicate IsDigit(c: char) {
    '0' <= c <= '9'
  }

  predicate AllDigits(s: string) {
    forall i :: 0 <= i < |s| ==> IsDigit(s[i])
  }

  function DigitChar(n: int): (c: char)
    requires 0 <= n < 10
    ensures IsDigit(c)
  {
    ('0' as int + n) as char
  }

  function DigitValue(c: char): (n: int)
    requires IsDigit(c)
    ensures 0 <= n < 10
  {
    c as int - '0' as int
  }

  function Pow10(w: nat): (p: nat)
    ensures p >= 1
  {
    if w == 0 then 1 else 10 * Pow10(w - 1)
  }

  /** Decimal digits of `n`, zero-padded on the left to at least `w` digits. */
  function Pad(n: nat, w: nat): string
    decreases w, n
  {
    if n < 10 && w <= 1 then [DigitChar(n)]
    else Pad(n / 10, if w == 0 then 0 else w - 1) + [DigitChar(n % 10)]
  }

  /** The number a string of decimal digits denotes. */
  function Num(s: string): nat
    requires AllDigits(s)
  {
    if |s| == 0 then 0 else Num(s[..|s| - 1]) * 10 + DigitValue(s[|s| - 1])
  }

  /** The year of era: 1 BC (year 0) is written as year 1, and so on. */
  function YearOfEra(y: int): nat {
    if y > 0 then y else 1 - y
  }

  /**
   * The text is the year of era in at least four digits, a dash, the month
   * in two digits, a dash and the day in two digits; it is ten characters
   * long exactly when the year of era has at most four digits.
   */
  function Format(d: Date): (s: string)
    requires ValidDate(d)
    ensures |s| >= 10 && s[|s| - 6] == '-' && s[|s| - 3] == '-'
    ensures AllDigits(s[..|s| - 6]) && Num(s[..|s| - 6]) == YearOfEra(d.year)
    ensures AllDigits(s[|s| - 5..|s| - 3]) && Num(s[|s| - 5..|s| - 3]) == d.month
    ensures AllDigits(s[|s| - 2..]) && Num(s[|s| - 2..]) == d.day
    ensures |s| == 10 <==> YearOfEra(d.year) < 10000
  {
    var ys, ms, ds := Pad(YearOfEra(d.year), 4), Pad(d.month, 2), Pad(d.day, 2);
    PadDenotes(YearOfEra(d.year), 4);
    PadDenotes(d.month, 2);
    PadDenotes(d.day, 2);
    PadWidth(YearOfEra(d.year), 4);
    assert Pow10(2) == 100 && Pow10(4) == 10000;
    PadWidth(d.month, 2);
    PadWidth(d.day, 2);
    var s := ys + "-" + ms + "-" + ds;
    assert s[..|s| - 6] == ys;
    assert s[|s| - 5..|s| - 3] == ms;
    assert s[|s| - 2..] == ds;
    s
  }

  /** Reads `yyyy-MM-dd`; anything else, or a day the month lacks, is `None`. */
  function Parse(s: string): (r: Option<Date>)
    ensures r.Some? ==> ValidDate(r.value) && 0 <= r.value.year <= 9999
  {
    if |s| == 10 && s[4] == '-' && s[7] == '-'
       && AllDigits(s[0..4]) && AllDigits(s[5..7]) && AllDigits(s[8..10])
    then
      var y, m, d := Num(s[0..4]), Num(s[5..7]), Num(s[8..10]);
      NumBound(s[0..4]);
      if 1 <= m <= 12 && 1 <= d <= DaysInMonth(y, m) then Some(Date(y, m, d)) else None
    else None
  }

  lemma {:induction false} NumBound(s: string)
    requires AllDigits(s)
    ensures Num(s) < Pow10(|s|)
  {
    if |s| > 0 {
      NumBound(s[..|s| - 1]);
    }
  }

  /** Padding writes only digits, and they denote the padded number. */
  lemma {:induction false} PadDenotes(n: nat, w: nat)
    ensures AllDigits(Pad(n, w))
    ensures Num(Pad(n, w)) == n
    decreases w, n
  {
    if !(n < 10 && w <= 1) {
      var w' := if w == 0 then 0 else w - 1;
      PadDenotes(n / 10, w');
      var p := Pad(n, w);
      assert p[..|p| - 1] == Pad(n / 10, w');
    }
  }

  /** Padding never shortens, and it keeps width `w` exactly for the numbers below `10^w`. */
  lemma {:induction false} PadWidth(n: nat, w: nat)
    ensures |Pad(n, w)| >= w && |Pad(n, w)| >= 1
    ensures 1 <= w ==> (|Pad(n, w)| == w <==> n < Pow10(w))
    decreases w, n
  {
    if !(n < 10 && w <= 1) {
      var w' := if w == 0 then 0 else w - 1;
      PadWidth(n / 10, w');
    }
  }

  /** Re-padding the number a digit string denotes gives back the string. */
  lemma {:induction false} PadOfNum(s: string)
    requires AllDigits(s) && |s| >= 1
    ensures Pad(Num(s), |s|) == s
    decreases |s|
  {
    var init := s[..|s| - 1];
    NumBound(init);
    if |s| > 1 {
      PadOfNum(init);
      assert s == init + [s[|s| - 1]];
    }
  }

  /** Formatting then parsing gives back the date, for years 1 to 9999. */
  lemma ParseFormat(d: Date)
    requires ValidDate(d) && 1 <= d.year <= 9999
    ensures Parse(Format(d)) == Some(d)
  {
    var ys, ms, ds := Pad(d.year, 4), Pad(d.month, 2), Pad(d.day, 2);
    assert Pow10(2) == 100 && Pow10(4) == 10000;
    PadWidth(d.year, 4);
    PadWidth(d.month, 2);
    PadWidth(d.day, 2);
    PadDenotes(d.year, 4);
    PadDenotes(d.month, 2);
    PadDenotes(d.day, 2);
    var s := Format(d);
    assert s[0..4] == ys;
    assert s[5..7] == ms;
    assert s[8..10] == ds;
  }

  /** Every string that parses to a year of era is the formatting of its date. */
  lemma FormatParse(s: string)
    requires Parse(s).Some? && Parse(s).value.year >= 1
    ensures Format(Parse(s).value) == s
  {
    var d := Parse(s).value;
    PadOfNum(s[0..4]);
    PadOfNum(s[5..7]);
    PadOfNum(s[8..10]);
    assert s == s[0..4] + "-" + s[5..7] + "-" + s[8..10];
  }
}

=== FILE: scenarios.dfy ===
/**
 * Concrete walks through the selection protocol, with the cells' time of
 * day `t` left arbitrary.
 */
module Scenarios {
  import opened Wrappers
  import opened Gregorian
  import opened Days
  import opened DateRange
  import IsoDate

  function At(day: int, t: int): Moment {
    Moment(Date(2024, 3, day), t)
  }

  /** The text the picker emits for a day of March 2024. */
  lemma MarchText(day: int)
    requires 1 <= day <= 31
    ensures IsoDate.Format(Date(2024, 3, day))
      == "2024-03-" + [IsoDate.DigitChar(day / 10), IsoDate.DigitChar(day % 10)]
  {
    assert IsoDate.Pad(2024, 4) == IsoDate.Pad(202, 3) + "4";
    assert IsoDate.Pad(202, 3) == IsoDate.Pad(20, 2) + "2";
    assert IsoDate.Pad(20, 2) == "20";
    assert IsoDate.Pad(3, 2) == "03";
    assert IsoDate.Pad(day, 2) == IsoDate.Pad(day / 10, 1) + [IsoDate.DigitChar(day % 10)];
  }

  /** The text of a day of March 2024, and its reading back. */
  lemma March(day: int)
    requires 1 <= day <= 31
    ensures Resolve(IsoDate.Format(Date(2024, 3, day))) == Some(Date(2024, 3, day))
  {
    ResolveFormat(Date(2024, 3, day));
  }

  /** From nothing selected, a click sets the start and clears the end. */
  lemma FirstClickStarts(t: int)
    requires 0 <= t < MS_PER_DAY
    ensures Step(Initial, ClickDay(At(15, t)), true, 0) == Widget("2024-03-15", "", 0, None)
  {
    MarchText(15);
    assert IsoDate.Format(Date(2024, 3, 15)) == "2024-03-15";
  }

  /** With only a start, a click on an earlier day restarts there. */
  lemma EarlierClickRestarts(t: int)
    requires 0 <= t < MS_PER_DAY
    ensures Step(Widget("2024-03-15", "", 0, None), ClickDay(At(10, t)), false, 0)
      == Widget("2024-03-10", "", 0, None)
  {
    MarchText(15);
    assert IsoDate.Format(Date(2024, 3, 15)) == "2024-03-15";
    March(15);
    var ctx := DayContext("2024-03-15", "", None, false, 0);
    assert DayNumber(Date(2024, 3, 10)) == 19792 && DayNumber(Date(2024, 3, 15)) == 19797;
    assert Instant(At(10, t)) < Midnight(Date(2024, 3, 15));
    MarchText(10);
    assert IsoDate.Format(Date(2024, 3, 10)) == "2024-03-10";
    assert Click(ctx, At(10, t)) == [OnStart("2024-03-10"), OnEnd("")];
  }

  /** With only a start, a click on a later day sets the end. */
  lemma LaterClickEnds(t: int)
    requires 0 <= t < MS_PER_DAY
    ensures Step(Widget("2024-03-15", "", 0, None), ClickDay(At(20, t)), false, 0)
      == Widget("2024-03-15", "2024-03-20", 0, None)
  {
    MarchText(15);
    assert IsoDate.Format(Date(2024, 3, 15)) == "2024-03-15";
    March(15);
    var ctx := DayContext("2024-03-15", "", None, false, 0);
    assert DayNumber(Date(2024, 3, 15)) == 19797 && DayNumber(Date(2024, 3, 20)) == 19802;
    assert Instant(At(20, t)) > Midnight(Date(2024, 3, 15));
    MarchText(20);
    assert IsoDate.Format(Date(2024, 3, 20)) == "2024-03-20";
    assert Click(ctx, At(20, t)) == [OnEnd("2024-03-20")];
  }

  /** With a complete range, any click restarts. */
  lemma ClickAfterRangeRestarts(t: int)
    requires 0 <= t < MS_PER_DAY
    ensures Step(Widget("2024-03-01", "2024-03-05", 0, None), ClickDay(At(10, t)), false, 0)
      == Widget("2024-03-10", "", 0, None)
  {
    MarchText(5);
    assert IsoDate.Format(Date(2024, 3, 5)) == "2024-03-05";
    March(5);
    var ctx := DayContext("2024-03-01", "2024-03-05", None, false, 0);
    assert Resolve(ctx.endStr).Some?;
    MarchText(10);
    assert IsoDate.Format(Date(2024, 3, 10)) == "2024-03-10";
    assert Click(ctx, At(10, t)) == [OnStart("2024-03-10"), OnEnd("")];
  }

  /**
   * With start 2024-03-15, hovering 2024-03-20 previews the days 15 to 20,
   * and after the end is committed there those days are boundaries or in range.
   */
  lemma HoverThenCommit(k: int, t: int)
    requires 15 <= k <= 20 && 0 <= t < MS_PER_DAY
    ensures
      var f := Classify(DayContext("2024-03-15", "", Some(At(20, t)), false, 0), At(k, t));
      f.isStart || f.previewing
    ensures
      var f := Classify(DayContext("2024-03-15", "2024-03-20", None, false, 0), At(k, t));
      f.isStart || f.isEnd || f.inRange
  {
    MarchText(15);
    MarchText(20);
    assert IsoDate.Format(Date(2024, 3, 15)) == "2024-03-15";
    assert IsoDate.Format(Date(2024, 3, 20)) == "2024-03-20";
    March(15);
    March(20);
    assert DayNumber(Date(2024, 3, k)) == 19782 + k;
    assert DayNumber(Date(2024, 3, 15)) == 19797 && DayNumber(Date(2024, 3, 20)) == 19802;
    var hovering := DayContext("2024-03-15", "", Some(At(20, t)), false, 0);
    var committed := DayContext("2024-03-15", "2024-03-20", None, false, 0);
    PreviewByDay(hovering, At(k, t));
    StartDayByDate(hovering, At(k, t));
    RangeCoverage(committed, At(k, t));
  }
}

=== FILE: wrappers.dfy ===
/** The optional-value datatype used for absent dates. */
module Wrappers {

  /** A value that may be absent: JavaScript's `Date | null`. */
  datatype Option<+T> = None | Some(value: T)
}
